=== FILE: README.md ===
# EOS price oracle pipeline — a Dafny model

This project models the price pipeline of a periodic EOS/USD oracle (`index.js`). Each
cycle does four things:

- It samples three quotes (BTC/USD, EOS/BTC, EOS/USD) from lists of web providers.
- It reduces each quote's samples to a median.
- It combines `btcusd * eosbtc` with `eosusd` into one cross rate and scales it to an
  integer price in hundredths.
- It pushes an `update` action carrying that price to a list of ledger endpoints, with
  failover. After a successful update it records the cycle time and pushes a
  follow-up `run` action, again with failover.

On start-up the scheduler computes how long to wait before the first cycle. It uses the
recorded time, so that cycles stay one period apart across restarts.

Network, ledger, file and clock access become inputs:

- `download(url)` is the parsed JSON document, or `None` when the fetch failed.
- `parseFloat(json)` is the number JavaScript's `parseFloat` reads from a value, or
  `None` for NaN.
- `submit(url, tx)` is one endpoint's answer to one push.
- `date` and `now` are clock readings. `saved` is the time read back from the file.

Modules, leaves first:

| module | file | models |
|---|---|---|
| `JsValues` | js_values.dfy | finite number / NaN / `undefined`, `isValid`, `*` |
| `Sorting` | sorting.dfy | the ascending `sort((a, b) => a - b)` |
| `Aggregation` | aggregation.dfy | `median`, the cross rate, `Math.round(result * 100)` |
| `Extraction` | extraction.dfy | `unpack`: `split("/")`, JavaScript property access, the walk |
| `Sampling` | sampling.dfy | `getPrice`, `getPrices` |
| `Relay` | relay.dfy | `tryTransaction` with endpoint failover |
| `Cycle` | cycle.dfy | `collect`: price check, update, `saveTime`, run |
| `Scheduler` | scheduler.dfy | the restart delay in `main` |

Three features of the code shape the model:

- **Cross rate.** The code takes `median([btcusd * eosbtc, eosusd])`, which falls back
  to whichever candidate is valid. A cycle aborts only when both candidates are
  missing.
- **Rounding.** `Math.round(result * 100)` rounds halves towards +infinity; it does not
  truncate.
- **Overlapping cycles.** `setInterval` starts a cycle every period with no guard
  against one still running, so no such guard is modelled.

## Model

| member | source | states |
|---|---|---|
| `JsValues.IsValid` | index.js:18-20 | a value passes iff `isNaN` (which turns `undefined` into NaN) rejects it and it is not `undefined` |
| `JsValues.Mul` | index.js:118 | `*` never gives `undefined`; the product is a number iff both factors are, and then it is their product |
| `Sorting.InsertCorrect` | index.js:49 | inserting into an ascending list keeps it ascending and adds exactly the new element |
| `Sorting.SortAscCorrect` | index.js:49 | the sort yields an ascending permutation of its input |
| `Sorting.SortedUnique` | index.js:49 | two ascending lists with the same elements are equal, so every correct sort gives the same list |
| `Aggregation.ValidValues` | index.js:48 | the `isValid` filter is empty exactly when no entry is a finite number, and it never grows the list |
| `Aggregation.ValidValuesCount` | index.js:48 | the filter keeps each finite number exactly as often as it occurs and drops NaN and `undefined` |
| `Aggregation.ValidValuesAppend` | index.js:48 | the filter keeps input order, because it distributes over concatenation |
| `Aggregation.ValidValuesMembers` | index.js:48 | a number survives the filter iff it occurs as a finite entry |
| `Aggregation.Middle` | index.js:50-53 | the middle is missing iff the list is empty; otherwise it is the mean of the two central entries (one entry when the length is odd), and on an ascending list it lies between them |
| `Aggregation.Median` | index.js:46-54 | `median` is `undefined` exactly when no entry passes `isValid` |
| `Aggregation.MedianOfSorted` | index.js:49-53 | for any ascending arrangement of the valid entries, the median is index n/2 when n is odd and the mean of indices n/2-1 and n/2 when n is even |
| `Aggregation.MedianPermutation` | index.js:47-53 | the median does not depend on the order of the input |
| `Aggregation.MedianIgnoresInvalid` | index.js:48 | adding a NaN or `undefined` anywhere leaves the median unchanged |
| `Aggregation.MedianWithinRange` | index.js:46-54 | a defined median lies between the least and the greatest finite entry |
| `Aggregation.MedianOfPair` | index.js:46-54 | the median of two candidates is their mean when both are valid, the valid one when only one is, and `undefined` when neither is |
| `Aggregation.MedianOfThree` | index.js:51-52 | three ascending samples have the middle one as median |
| `Aggregation.MedianOfFour` | index.js:51-53 | four ascending samples have the mean of the two middle ones as median |
| `Aggregation.MedianExamples` | index.js:46-54 | [10, 20, 30] gives 20 and [10, 20, 30, 40] gives 25 |
| `Aggregation.CrossRate` | index.js:115-118 | with both candidates valid, the result is the mean of `btcusd*eosbtc` and `eosusd`; with one valid, it is that one; with neither, it is `undefined` |
| `Aggregation.Round` | index.js:119 | `Math.round` gives the nearest integer, with halves rounded up |
| `Aggregation.FixedPrice` | index.js:119 | the price is valid iff the cross rate is, and it is within one half of the rate times 100 |
| `Aggregation.PriceValidity` | index.js:118-121 | the price is valid iff `eosusd` or both `btcusd` and `eosbtc` have a median |
| `Extraction.Split` | index.js:70 | `split("/")` gives at least one piece, and no piece contains `/` |
| `Extraction.JoinSplit` | index.js:70 | joining the pieces of a split with `/` gives back the path |
| `Extraction.SplitJoin` | index.js:70 | splitting a `/`-join of separator-free pieces gives back the pieces |
| `Extraction.ArrayIndexCanonical` | index.js:72 | a key addresses array element n iff it is the decimal spelling of n |
| `Extraction.Get` | index.js:72 | `value[key]` throws exactly on `null`, gives an object's field value when the key is present and `undefined` otherwise, gives the array element at a canonical in-range index and the array's `length`, and gives `undefined` for any other array key and for any key of a number or boolean |
| `Extraction.GetString` | index.js:72 | on a string, a canonical in-range index gives the one-character string at that position, an index past the end gives `undefined`, and `length` gives the length |
| `Extraction.Walk` | index.js:71-72 | an empty path reaches the document itself, a one-segment path is the property access `value[key]`, and `undefined` comes only from the last segment, applied to a value that all earlier segments reached; with `WalkAppend`, the walk applies `value[key]` segment by segment, in order |
| `Extraction.WalkAppend` | index.js:70-72 | segments apply in order, so walking `a + b` is walking `a` and then `b`; after an `undefined`, any further segment throws |
| `Extraction.Unpack` | index.js:67-76 | the result is `undefined` iff there is no document or the walk throws, and a number comes from `parseFloat` of the value reached |
| `Extraction.UnpackMissingFinalKey` | index.js:72-73 | a missing final key gives NaN, not `undefined` |
| `Extraction.UnpackThroughNull` | index.js:72-75 | a path through a `null` intermediate gives `undefined` |
| `Extraction.UnpackThroughUndefined` | index.js:72-75 | a path through a missing intermediate key gives `undefined` |
| `Extraction.UnpackReached` | index.js:72-73 | a path that reaches a value gives `parseFloat` of it, with NaN when it does not parse |
| `Sampling.OutcomesAppend` | index.js:79 | the outcomes follow provider order: those of `p + q` are those of `p` followed by those of `q` |
| `Sampling.DropUndefined` | index.js:80 | the filter removes every `undefined` and keeps everything else, NaN included, with its multiplicity |
| `Sampling.DropUndefinedAppend` | index.js:80 | the filter keeps order, because it distributes over concatenation |
| `Sampling.DropUndefinedKeepsDefined` | index.js:80 | a list without `undefined` passes the filter unchanged |
| `Sampling.DropUndefinedAllFailed` | index.js:80 | a list of failures filters down to nothing |
| `Sampling.GetPrices` | index.js:78-81 | the samples are the providers' outcomes minus the `undefined` ones, counted as providers minus failures, with NaN kept |
| `Sampling.GetPricesAppend` | index.js:78-81 | sampling `p + q` gives the samples of `p` followed by those of `q` |
| `Sampling.GetPrice` | index.js:56-59 | a provider's outcome is `undefined` iff its download failed or the walk threw, and a number is `parseFloat` of the value the path reaches |
| `Sampling.GetPriceNoDocument` | index.js:56-68 | a provider whose download fails contributes no sample |
| `Relay.TryTransaction` | index.js:83-102 | pushes go to endpoints from the start index on, in order, all with the same transaction; all but the last push were rejected; success returns the accepting endpoint's id; failure returns "Transaction failed on all endpoints" after one push per remaining endpoint; success holds iff some remaining endpoint accepts |
| `Relay.FailoverFirstSuccess` | index.js:83-102 | when endpoints 0..k-1 reject and endpoint k accepts, the result is k's id after exactly k+1 pushes to endpoints 0..k |
| `Relay.FailoverExhausted` | index.js:84-101 | when every endpoint rejects (or there are none), the result is the all-endpoints error after exactly one push per endpoint, in order |
| `Cycle.RelayPrice` | index.js:121-139 | an invalid price pushes and saves nothing. Otherwise `update` is pushed first. The time is saved once, exactly when some endpoint accepted `update`. `run` is pushed only after the save. Update failure, run failure and completion are distinct outcomes, each tied to the endpoints' answers |
| `Cycle.RelayPriceSequencing` | index.js:121-135 | `update` goes to the first endpoint first; every save directly follows an `update` push that an endpoint accepted; every `run` push comes after the save; when no endpoint accepts `update`, the trace is one `update` push per endpoint, in order, and nothing else, so `run` is never attempted |
| `Cycle.RelayPriceRunAfterSave` | index.js:124-132 | after an accepted `update`, the save is followed at once by a push of `run` to the first endpoint |
| `Cycle.RelayPriceFirstAcceptors` | index.js:121-139 | when endpoint k is the first to accept `update` and endpoint m the first to accept `run`, the cycle completes with exactly this trace: `update` pushed once to each of endpoints 0..k, the save, then `run` pushed once to each of endpoints 0..m |
| `Cycle.RelayPriceRunExhausted` | index.js:121-136 | when endpoint k is the first to accept `update` and every endpoint rejects `run`, the cycle reports the all-endpoints error for `run` after `update` to endpoints 0..k, the save, and `run` once to every endpoint |
| `Cycle.RelayPriceUpdateExhausted` | index.js:121-128 | when every endpoint rejects `update`, the cycle reports the all-endpoints error after one `update` push per endpoint, with no save and no `run` |
| `Cycle.UpdateTransaction` | index.js:124 | the `update` action goes to the contract, authorised by the contract account's `oracle` permission, carries the price, and differs from `run` |
| `Cycle.RunTransaction` | index.js:132 | the `run` action goes to the same contract, authorised by `scrugeoracle@active`, with a batch of at most 50 |
| `Cycle.CyclePrice` | index.js:109-119 | the cycle's price exists iff `eosusd` or both `btcusd` and `eosbtc` have a median; it is within one half of 100 times the cross rate: the mean of `btcusd*eosbtc` and `eosusd` when both exist, otherwise whichever of the two exists |
| `Cycle.Collect` | index.js:109-139 | a cycle aborts before any push exactly when `eosusd` has no valid sample and one of `btcusd` or `eosbtc` has none either; otherwise it carries the price `CyclePrice` computes, and its first push is `update` with that price to the first endpoint |
| `Cycle.CollectWithoutDocuments` | index.js:109-139 | when every BTC/USD and EOS/USD download fails, the cycle aborts with no events |
| `Scheduler.RestartDelay` | index.js:151-152 | the delay lies between 0 and the interval. It is `interval - deltaTime` inside that range, 0 once a full period has passed, and the whole interval for a saved time in the future. An unparsable saved time gives NaN |
| `Scheduler.RestartKeepsPhase` | index.js:151-152 | a restart within one period of the last update fires the first cycle exactly one period after that update |
| `Scheduler.ResumeAfterCycle` | index.js:130-152 | when some endpoint accepts the `update`, the cycle saves its start time, and a restart within one period waits until one period after that start |

## Left out

- File I/O: `loadEndpoints`, `loadTime` and `saveTime` (index.js:22-39). The endpoint
  list is a `Config` value, the loaded time is an `Option<int>` input and `saveTime` is
  a `SavedTime` trace event. The check `time === NaN` at index.js:30 is always false,
  so its branch is dead code and is not modelled. An unparsable file reaches the
  delay as NaN, and the model returns `None` for it.
- Timer behaviour: `setInterval` and `setTimeout` (index.js:144-155). The
  code's coercion of a NaN delay to an immediate timer is outside the model.
- Network and ledger clients: `fetch`, the eosjs `Api`/`JsonRpc`/`JsSignatureProvider`,
  `api.transact` and the TLS root-CA setup (index.js:1-14, 41-44, 61-65, 88-93). These
  are foreign calls. They are replaced by the `download` and `submit` function
  parameters, which are deterministic per argument. Two providers with the same URL
  therefore see the same document within one cycle.
- `parseFloat` parsing of text is abstract. The parameter's `None` stands for NaN.
- Concurrency of the `p-iteration` `map` (index.js:79): modelled as a sequential,
  order-preserving map.
- IEEE-754 arithmetic: Infinity passing `isValid`, and rounding error in `*`, `/ 2.0`
  and `* 100`. Numbers are exact reals with explicit NaN and `undefined` tags.
- `null` as a sample value: `parseFloat` never returns it and `median` never
  returns it, so `isValid`'s `null` case cannot arise in this pipeline. JSON `null`
  inside a document is modelled, and indexing it throws.
- String indexing: JavaScript indexes strings and counts their `length` in UTF-16 code
  units, but a string here is a sequence of Unicode scalar values. For characters
  outside the Basic Multilingual Plane, `Get` on a `JString` therefore differs from
  JavaScript (`"😀".length` is 2 in JavaScript and 1 here).
- Inherited JavaScript properties other than `length` (such as `toString` reached
  through a path segment) are treated as `undefined`.
- A provider entry without a URL (`download(undefined)`, index.js:62) is not
  modelled: every `Provider` has a URL.
- The `count` of fetched prices, the transaction receipt beyond its id, and all
  logging, colours and date formatting are presentation only.

=== FILE: aggregation.dfy ===
/** The aggregator: `median` over a sample list, the cross-rate composition of three
    quote medians and the fixed-point price sent to the ledger. */
module Aggregation {
  import opened JsValues
  import opened Sorting

  /** The finite entries of `v`, in order: the `isValid` filter of `median`. */
  function ValidValues(v: seq<Num>): (r: seq<real>)
    ensures |r| <= |v|
    ensures r == [] <==> NoValidEntry(v)
  {
    if |v| == 0 then []
    else
      assert v == [v[0]] + v[1..];
      if IsValid(v[0]) then [v[0].x] + ValidValues(v[1..]) else ValidValues(v[1..])
  }

  /** The filter keeps exactly the finite numbers of `v`. */
  lemma {:induction false} ValidValuesMembers(v: seq<Num>)
    ensures forall x :: x in ValidValues(v) <==> Fin(x) in v
  {
    if |v| > 0 {
      assert v == [v[0]] + v[1..];
      ValidValuesMembers(v[1..]);
    }
  }

  /** The filter keeps each finite number exactly as often as it occurs. */
  lemma {:induction false} ValidValuesCount(v: seq<Num>, x: real)
    ensures multiset(ValidValues(v))[x] == multiset(v)[Fin(x)]
  {
    if |v| > 0 {
      assert v == [v[0]] + v[1..];
      ValidValuesCount(v[1..], x);
    }
  }

  /** The filter preserves order: it distributes over concatenation. */
  lemma {:induction false} ValidValuesAppend(a: seq<Num>, b: seq<Num>)
    ensures ValidValues(a + b) == ValidValues(a) + ValidValues(b)
  {
    if |a| == 0 {
      assert a + b == b;
    } else {
      assert (a + b)[0] == a[0];
      assert (a + b)[1..] == a[1..] + b;
      ValidValuesAppend(a[1..], b);
    }
  }

  // The filter on short lists, one step at a time.
  lemma ValidValuesCons(n: Num, w: seq<Num>)
    ensures ValidValues([n] + w) == (if IsValid(n) then [n.x] else []) + ValidValues(w)
  {
    assert ([n] + w)[1..] == w;
  }

  lemma ValidValuesSingle(x: real)
    ensures ValidValues([Fin(x)]) == [x]
  {
    assert [Fin(x)][1..] == [];
  }

  lemma ValidValuesOfPair(p: Num, q: Num)
    ensures ValidValues([p, q]) ==
      (if IsValid(p) then [p.x] else []) + (if IsValid(q) then [q.x] else [])
  {
    ValidValuesCons(p, [q]);
    ValidValuesCons(q, []);
    assert [q] + [] == [q];
    assert [p] + [q] == [p, q];
  }

  lemma ValidValuesOfThree(a: real, b: real, c: real)
    ensures ValidValues([Fin(a), Fin(b), Fin(c)]) == [a, b, c]
  {
    var w2 := [Fin(c)];
    var w1 := [Fin(b)] + w2;
    var w0 := [Fin(a)] + w1;
    ValidValuesSingle(c);
    ValidValuesCons(Fin(b), w2);
    ValidValuesCons(Fin(a), w1);
    assert ValidValues(w0) == [a, b, c];
    assert w0 == [Fin(a), Fin(b), Fin(c)];
  }

  lemma ValidValuesOfFour(a: real, b: real, c: real, d: real)
    ensures ValidValues([Fin(a), Fin(b), Fin(c), Fin(d)]) == [a, b, c, d]
  {
    var w3 := [Fin(d)];
    var w2 := [Fin(c)] + w3;
    var w1 := [Fin(b)] + w2;
    var w0 := [Fin(a)] + w1;
    ValidValuesSingle(d);
    ValidValuesCons(Fin(c), w3);
    ValidValuesCons(Fin(b), w2);
    ValidValuesCons(Fin(a), w1);
    assert ValidValues(w0) == [a, b, c, d];
    assert w0 == [Fin(a), Fin(b), Fin(c), Fin(d)];
  }

  /** The middle of an ascending list: index n/2 for odd n, the mean of indices
      n/2-1 and n/2 for even n, nothing for an empty list. */
  function Middle(s: seq<real>): (r: Option<real>)
    ensures r.None? <==> |s| == 0
    // one formula for both parities: the mean of the two central entries, which
    // coincide when the length is odd
    ensures |s| > 0 ==> r.value == (s[(|s| - 1) / 2] + s[|s| / 2]) / 2.0
    ensures Sorted(s) && |s| > 0 ==> s[(|s| - 1) / 2] <= r.value <= s[|s| / 2]
  {
    if |s| == 0 then None
    else
      var half := |s| / 2;
      if |s| % 2 == 1 then Some(s[half]) else Some((s[half - 1] + s[half]) / 2.0)
  }

  // The middle of short ascending lists.
  lemma MiddleOfOne(a: real)
    ensures Middle([a]) == Some(a)
  {
  }

  lemma MiddleOfTwo(a: real, b: real)
    ensures Middle([a, b]) == Some((a + b) / 2.0) == Some((b + a) / 2.0)
  {
  }

  lemma MiddleOfThree(a: real, b: real, c: real)
    ensures Middle([a, b, c]) == Some(b)
  {
  }

  lemma MiddleOfFour(a: real, b: real, c: real, d: real)
    ensures Middle([a, b, c, d]) == Some((b + c) / 2.0)
  {
  }

  lemma SortedFour(a: real, b: real, c: real, d: real)
    requires a <= b <= c <= d
    ensures Sorted([a, b, c, d])
  {
  }

  /** No entry of `v` passes `isValid`. */
  predicate NoValidEntry(v: seq<Num>)
  {
    forall i :: 0 <= i < |v| ==> !IsValid(v[i])
  }

  /** `median` (index.js:46-54): drop NaN and `undefined`, sort ascending, take the
      middle. */
  function Median(v: seq<Num>): (r: Option<real>)
    ensures r.None? <==> NoValidEntry(v)
  {
    var s := SortAsc(ValidValues(v));
    SortAscCorrect(ValidValues(v));
    assert |s| == 0 <==> ValidValues(v) == [] by {
      assert |multiset(s)| == |s| && |multiset(ValidValues(v))| == |ValidValues(v)|;
    }
    Middle(s)
  }

  /** Any ascending arrangement of the valid entries gives the median: the result
      does not depend on how the sort is carried out. */
  lemma MedianOfSorted(v: seq<Num>, t: seq<real>)
    requires Sorted(t)
    requires multiset(t) == multiset(ValidValues(v))
    ensures Median(v) == Middle(t)
  {
    SortAscCorrect(ValidValues(v));
    SortedUnique(SortAsc(ValidValues(v)), t);
  }

  /** The median does not depend on the order of the input. */
  lemma MedianPermutation(v: seq<Num>, w: seq<Num>)
    requires multiset(v) == multiset(w)
    ensures Median(v) == Median(w)
  {
    forall x: real
      ensures multiset(ValidValues(v))[x] == multiset(ValidValues(w))[x]
    {
      ValidValuesCount(v, x);
      ValidValuesCount(w, x);
    }
    assert multiset(ValidValues(v)) == multiset(ValidValues(w));
    SortAscCorrect(ValidValues(v));
    MedianOfSorted(w, SortAsc(ValidValues(v)));
  }

  /** Inserting an invalid entry anywhere leaves the median unchanged. */
  lemma MedianIgnoresInvalid(a: seq<Num>, n: Num, b: seq<Num>)
    requires !IsValid(n)
    ensures Median(a + [n] + b) == Median(a + b)
  {
    ValidValuesAppend(a + [n], b);
    ValidValuesAppend(a, [n]);
    ValidValuesAppend(a, b);
    assert ValidValues([n]) == [] by {
      assert [n][1..] == [];
    }
    assert ValidValues(a + [n] + b) == ValidValues(a + b);
    SortAscCorrect(ValidValues(a + b));
    MedianOfSorted(a + [n] + b, SortAsc(ValidValues(a + b)));
  }

  /** The median lies between the least and the greatest valid entry. */
  lemma MedianWithinRange(v: seq<Num>)
    requires Median(v).Some?
    ensures exists i :: 0 <= i < |v| && v[i].Fin? && v[i].x <= Median(v).value
    ensures exists j :: 0 <= j < |v| && v[j].Fin? && Median(v).value <= v[j].x
  {
    var s := SortAsc(ValidValues(v));
    SortAscCorrect(ValidValues(v));
    var n := |s|;
    assert n > 0;
    var m := Median(v).value;
    var half := n / 2;
    assert s[0] <= s[half] <= s[n - 1];
    if n % 2 == 0 {
      assert s[0] <= s[half - 1];
    }
    assert s[0] <= m <= s[n - 1];
    assert s[0] in multiset(ValidValues(v)) && s[n - 1] in multiset(ValidValues(v));
    ValidValuesMembers(v);
    assert Fin(s[0]) in v && Fin(s[n - 1]) in v;
  }

  /** A single valid entry is its own median. */
  lemma MedianOfOneValid(v: seq<Num>, a: real)
    requires ValidValues(v) == [a]
    ensures Median(v) == Some(a)
  {
    MedianOfSorted(v, [a]);
    MiddleOfOne(a);
  }

  /** Two valid entries: their mean, whichever order they come in. */
  lemma MedianOfTwoValid(v: seq<Num>, a: real, b: real)
    requires ValidValues(v) == [a, b]
    ensures Median(v) == Some((a + b) / 2.0)
  {
    if a <= b {
      MedianOfSorted(v, [a, b]);
      MiddleOfTwo(a, b);
    } else {
      assert multiset([b, a]) == multiset([a, b]);
      MedianOfSorted(v, [b, a]);
      MiddleOfTwo(b, a);
    }
  }

  /** The median of two candidates: their mean when both are valid, the valid one
      when only one is, nothing when neither is. */
  lemma MedianOfPair(p: Num, q: Num)
    ensures Median([p, q]) ==
      if IsValid(p) && IsValid(q) then Some((p.x + q.x) / 2.0)
      else if IsValid(p) then Some(p.x)
      else if IsValid(q) then Some(q.x)
      else None
  {
    ValidValuesOfPair(p, q);
    if IsValid(p) && IsValid(q) {
      MedianOfTwoValid([p, q], p.x, q.x);
    } else if IsValid(p) {
      MedianOfOneValid([p, q], p.x);
    } else if IsValid(q) {
      MedianOfOneValid([p, q], q.x);
    } else {
      MedianOfSorted([p, q], []);
    }
  }

  /** Three ascending samples: the median is the middle one (so [10, 20, 30]
      gives 20). */
  lemma MedianOfThree(a: real, b: real, c: real)
    requires a <= b <= c
    ensures Median([Fin(a), Fin(b), Fin(c)]) == Some(b)
  {
    ValidValuesOfThree(a, b, c);
    MedianOfSorted([Fin(a), Fin(b), Fin(c)], [a, b, c]);
    MiddleOfThree(a, b, c);
  }

  /** Four ascending samples: the median is the mean of the two middle ones (so
      [10, 20, 30, 40] gives 25). */
  lemma MedianOfFour(a: real, b: real, c: real, d: real)
    requires a <= b <= c <= d
    ensures Median([Fin(a), Fin(b), Fin(c), Fin(d)]) == Some((b + c) / 2.0)
  {
    ValidValuesOfFour(a, b, c, d);
    MedianOfFourValid([Fin(a), Fin(b), Fin(c), Fin(d)], a, b, c, d);
  }

  lemma MedianOfFourValid(v: seq<Num>, a: real, b: real, c: real, d: real)
    requires a <= b <= c <= d
    requires ValidValues(v) == [a, b, c, d]
    ensures Median(v) == Some((b + c) / 2.0)
  {
    SortedFour(a, b, c, d);
    MedianOfSorted(v, [a, b, c, d]);
    MiddleOfFour(a, b, c, d);
  }

  /** The worked examples: [10, 20, 30] gives 20 and [10, 20, 30, 40] gives 25. */
  lemma MedianExamples()
    ensures Median([Fin(10.0), Fin(20.0), Fin(30.0)]) == Some(20.0)
    ensures Median([Fin(10.0), Fin(20.0), Fin(30.0), Fin(40.0)]) == Some(25.0)
  {
    MedianOfThree(10.0, 20.0, 30.0);
    MedianOfFour(10.0, 20.0, 30.0, 40.0);
  }

  /** The product `btcusd * eosbtc` as a candidate: defined only when both
      medians are. */
  function Product(btcUsd: Option<real>, eosBtc: Option<real>): Num
  {
    Mul(ToNum(btcUsd), ToNum(eosBtc))
  }

  /** `result = median([btcusd * eosbtc, eosusd])` (index.js:115-118): the mean of the
      derived and the direct EOS/USD rate when both exist, whichever exists
      otherwise. */
  function CrossRate(btcUsd: Option<real>, eosBtc: Option<real>, eosUsd: Option<real>): (r: Option<real>)
    ensures btcUsd.Some? && eosBtc.Some? && eosUsd.Some? ==>
      r == Some((btcUsd.value * eosBtc.value + eosUsd.value) / 2.0)
    ensures btcUsd.Some? && eosBtc.Some? && eosUsd.None? ==>
      r == Some(btcUsd.value * eosBtc.value)
    ensures (btcUsd.None? || eosBtc.None?) ==> r == eosUsd
  {
    var p := Product(btcUsd, eosBtc);
    var q := ToNum(eosUsd);
    CrossRateCases(btcUsd, eosBtc, eosUsd, p, q);
    Median([p, q])
  }

  /** The three cases of the cross rate, on the two candidates. */
  lemma CrossRateCases(btcUsd: Option<real>, eosBtc: Option<real>, eosUsd: Option<real>, p: Num, q: Num)
    requires p == Product(btcUsd, eosBtc) && q == ToNum(eosUsd)
    ensures btcUsd.Some? && eosBtc.Some? && eosUsd.Some? ==>
      Median([p, q]) == Some((btcUsd.value * eosBtc.value + eosUsd.value) / 2.0)
    ensures btcUsd.Some? && eosBtc.Some? && eosUsd.None? ==>
      Median([p, q]) == Some(btcUsd.value * eosBtc.value)
    ensures (btcUsd.None? || eosBtc.None?) ==> Median([p, q]) == eosUsd
  {
    MedianOfPair(p, q);
    if btcUsd.Some? && eosBtc.Some? {
      assert p == Fin(btcUsd.value * eosBtc.value);
    } else {
      assert !IsValid(p);
    }
  }

  /** `Math.round`: the nearest integer, halves rounded up (towards +infinity). */
  function Round(x: real): (n: int)
    ensures n as real - 0.5 <= x < n as real + 0.5
  {
    (x + 0.5).Floor
  }

  /** `price = Math.round(result * 100)` (index.js:119): the consensus rate in
      hundredths; NaN (here `None`) when there is no consensus rate. */
  function FixedPrice(result: Option<real>): (price: Option<int>)
    ensures price.Some? <==> result.Some?
    ensures price.Some? ==> -0.5 <= result.value * 100.0 - price.value as real < 0.5
  {
    match result
    case Some(x) => Some(Round(x * 100.0))
    case None => None
  }

  /** The price sent to the ledger is the cross rate in hundredths; it exists
      exactly when at least one of the two candidates does. */
  lemma PriceValidity(btcUsd: Option<real>, eosBtc: Option<real>, eosUsd: Option<real>)
    ensures FixedPrice(CrossRate(btcUsd, eosBtc, eosUsd)).Some? <==>
      (btcUsd.Some? && eosBtc.Some?) || eosUsd.Some?
  {
  }
}

=== FILE: cycle.dfy ===
/** One oracle cycle, `collect` (index.js:104-142): sample the three quotes, compute
    the price, push `update` with failover, record the time, push `run` with
    failover. The clock reading `date`, the downloads and the ledger are inputs;
    `saveTime` is an event in the returned trace. */
module Cycle {
  import opened JsValues
  import opened Extraction
  import opened Sampling
  import opened Aggregation
  import opened Relay

  /** The loaded `endpoints.json`: the providers of each quote and the ledger
      endpoints in preference order. */
  datatype Config = Config(
    btcUsd: seq<Provider>,
    eosBtc: seq<Provider>,
    eosUsd: seq<Provider>,
    eos: seq<string>)

  /** What a cycle does to the outside world, in order. */
  datatype Event = Pushed(attempt: Attempt) | SavedTime(date: int)

  /** How a cycle ends; each failure is reported differently. */
  datatype Outcome =
    | PriceInvalid           // "Price fetch completely failed"
    | UpdateFailed(message: string)  // "Update completely failed"
    | RunFailed(message: string)     // "Update went through, but run action failed"
    | Complete               // "Update complete."

  datatype Report = Report(price: Option<int>, outcome: Outcome, events: seq<Event>)

  /** `tryTransaction('update', contract, 'oracle', { eos_price: price })`. */
  function UpdateTransaction(price: int): (tx: Transaction)
    // pushed to the oracle contract, on its own authority, carrying the price
    ensures tx.name == "update" && tx.account == tx.actor == Contract && tx.permission == "oracle"
    ensures tx.data == UpdatePrice(price)
    ensures tx != RunTransaction()
  {
    MakeTransaction("update", Contract, "oracle", UpdatePrice(price))
  }

  /** `tryTransaction('run', 'scrugeoracle', 'active', { max: 50 })`. */
  function RunTransaction(): (tx: Transaction)
    // the same contract, authorised by the `scrugeoracle` account, for at most 50 entries
    ensures tx.name == "run" && tx.account == Contract && tx.actor == "scrugeoracle" && tx.permission == "active"
    ensures tx.data == RunBatch(50)
  {
    MakeTransaction("run", "scrugeoracle", "active", RunBatch(50))
  }

  /** The attempts of a failover as trace events. */
  function Pushes(attempts: seq<Attempt>): (r: seq<Event>)
    ensures |r| == |attempts|
    ensures forall k :: 0 <= k < |r| ==> r[k] == Pushed(attempts[k])
  {
    seq(|attempts|, k requires 0 <= k < |attempts| => Pushed(attempts[k]))
  }

  /** The price of a cycle (index.js:109-119): the medians of the three quotes,
      composed into the cross rate and scaled to hundredths. */
  function CyclePrice(cfg: Config, download: string -> Option<Json>, parseFloat: Json -> Option<real>): (r: Option<int>)
    ensures var btcUsd, eosBtc, eosUsd :=
        Median(GetPrices(cfg.btcUsd, download, parseFloat)),
        Median(GetPrices(cfg.eosBtc, download, parseFloat)),
        Median(GetPrices(cfg.eosUsd, download, parseFloat));
      && (r.Some? <==> (btcUsd.Some? && eosBtc.Some?) || eosUsd.Some?)
      && (btcUsd.Some? && eosBtc.Some? && eosUsd.Some? ==>
            -0.5 <= 100.0 * (btcUsd.value * eosBtc.value + eosUsd.value) / 2.0 - r.value as real < 0.5)
      // one candidate only: that candidate in hundredths
      && (btcUsd.Some? && eosBtc.Some? && eosUsd.None? ==>
            -0.5 <= 100.0 * (btcUsd.value * eosBtc.value) - r.value as real < 0.5)
      && ((btcUsd.None? || eosBtc.None?) && eosUsd.Some? ==>
            -0.5 <= 100.0 * eosUsd.value - r.value as real < 0.5)
  {
    var btcUsd := Median(GetPrices(cfg.btcUsd, download, parseFloat));
    var eosBtc := Median(GetPrices(cfg.eosBtc, download, parseFloat));
    var eosUsd := Median(GetPrices(cfg.eosUsd, download, parseFloat));
    FixedPrice(CrossRate(btcUsd, eosBtc, eosUsd))
  }

  /** Update accepted by some endpoint. */
  predicate UpdateAccepted(price: int, eos: seq<string>, submit: (string, Transaction) -> Response)
  {
    SomeAccepts(UpdateTransaction(price), eos, submit, 0)
  }

  /** The relay part of `collect` (index.js:121-139), once the price is known. */
  function RelayPrice(price: Option<int>, date: int, eos: seq<string>, submit: (string, Transaction) -> Response): (r: Report)
    ensures r.price == price
    // no valid price: nothing is pushed and nothing is saved
    ensures r.outcome.PriceInvalid? <==> price.None?
    ensures r.outcome.PriceInvalid? ==> r.events == []
    // the update is pushed first, with the computed price
    ensures price.Some? ==> |r.events| > 0 || eos == []
    ensures forall k :: 0 <= k < |r.events| && r.events[k].Pushed? ==>
      r.events[k].attempt.tx in {UpdateTransaction(price.value), RunTransaction()}
    // the time is saved exactly when the update went through, and only once
    ensures SavedTime(date) in r.events <==> price.Some? && UpdateAccepted(price.value, eos, submit)
    ensures forall k :: 0 <= k < |r.events| && r.events[k].SavedTime? ==> r.events[k] == SavedTime(date)
    ensures forall i, j :: 0 <= i < j < |r.events| ==> !(r.events[i].SavedTime? && r.events[j].SavedTime?)
    // run is pushed only after the save, and update only before it
    ensures forall i, j :: 0 <= i < |r.events| && 0 <= j < |r.events| && r.events[i].SavedTime? && r.events[j].Pushed? ==>
      (r.events[j].attempt.tx == RunTransaction() <==> i < j)
    // the outcome tells an update failure from a run failure
    ensures r.outcome.UpdateFailed? <==> price.Some? && !UpdateAccepted(price.value, eos, submit)
    ensures r.outcome.RunFailed? <==>
      price.Some? && UpdateAccepted(price.value, eos, submit) && !SomeAccepts(RunTransaction(), eos, submit, 0)
    ensures r.outcome.Complete? <==>
      price.Some? && UpdateAccepted(price.value, eos, submit) && SomeAccepts(RunTransaction(), eos, submit, 0)
  {
    match price
    case None => Report(price, PriceInvalid, [])
    case Some(p) =>
      var update := TryTransaction(UpdateTransaction(p), eos, submit, 0);
      var updateEvents := Pushes(update.attempts);
      if update.result.Error? then
        Report(price, UpdateFailed(update.result.message), updateEvents)
      else
        var run := TryTransaction(RunTransaction(), eos, submit, 0);
        var events := updateEvents + [SavedTime(date)] + Pushes(run.attempts);
        if run.result.Error? then Report(price, RunFailed(run.result.message), events)
        else Report(price, Complete, events)
  }

  /** The order of a cycle's effects (index.js:124-135). `update` is pushed first. The
      time is saved right after the `update` push an endpoint accepted. Every `run`
      push comes after that save, so `run` is never attempted when no endpoint
      accepted `update`; a failed `update` was pushed once to every endpoint. */
  lemma RelayPriceSequencing(price: Option<int>, date: int, eos: seq<string>,
                             submit: (string, Transaction) -> Response)
    ensures var e := RelayPrice(price, date, eos, submit).events;
      price.Some? && |eos| > 0 ==> |e| > 0 && e[0] == Pushed(Attempt(eos[0], UpdateTransaction(price.value)))
    ensures var e := RelayPrice(price, date, eos, submit).events;
      forall i :: 0 <= i < |e| && e[i].SavedTime? ==>
        && price.Some? && i > 0 && e[i - 1].Pushed?
        && e[i - 1].attempt.tx == UpdateTransaction(price.value)
        && submit(e[i - 1].attempt.url, e[i - 1].attempt.tx).Accepted?
    ensures var e := RelayPrice(price, date, eos, submit).events;
      forall k :: 0 <= k < |e| && e[k].Pushed? && e[k].attempt.tx == RunTransaction() ==>
        SavedTime(date) in e[..k]
    ensures var e := RelayPrice(price, date, eos, submit).events;
      price.Some? && !UpdateAccepted(price.value, eos, submit) ==>
        && |e| == |eos|
        && forall k :: 0 <= k < |e| ==> e[k] == Pushed(Attempt(eos[k], UpdateTransaction(price.value)))
  {
    match price
    case None =>
    case Some(p) =>
      var update := TryTransaction(UpdateTransaction(p), eos, submit, 0);
      var u := Pushes(update.attempts);
      assert UpdateTransaction(p).name != RunTransaction().name;
      if update.result.Done? {
        var run := TryTransaction(RunTransaction(), eos, submit, 0);
        var e := u + [SavedTime(date)] + Pushes(run.attempts);
        assert e == RelayPrice(price, date, eos, submit).events;
        assert e[|u|] == SavedTime(date);
        forall k | 0 <= k < |e| && e[k].Pushed? && e[k].attempt.tx == RunTransaction()
          ensures SavedTime(date) in e[..k]
        {
          assert k > |u|;
          assert e[..k][|u|] == SavedTime(date);
        }
      }
  }

  /** After an accepted `update`, `run` is attempted: the save is followed at once
      by a push of `run` to the first endpoint (index.js:130-132). */
  lemma RelayPriceRunAfterSave(price: int, date: int, eos: seq<string>,
                               submit: (string, Transaction) -> Response)
    requires UpdateAccepted(price, eos, submit)
    ensures var e := RelayPrice(Some(price), date, eos, submit).events;
      exists i :: 0 <= i < |e| - 1 && e[i] == SavedTime(date) && e[i + 1] == Pushed(Attempt(eos[0], RunTransaction()))
  {
    var update := TryTransaction(UpdateTransaction(price), eos, submit, 0);
    var run := TryTransaction(RunTransaction(), eos, submit, 0);
    var u := Pushes(update.attempts);
    var e := u + [SavedTime(date)] + Pushes(run.attempts);
    assert e == RelayPrice(Some(price), date, eos, submit).events;
    assert |eos| > 0;
    assert e[|u|] == SavedTime(date);
    assert e[|u| + 1] == Pushed(Attempt(eos[0], RunTransaction()));
  }

  /** The whole trace of a cycle whose `update` is first accepted by endpoint k and
      whose `run` is first accepted by endpoint m: `update` pushed once to each of
      endpoints 0..k, the save, then `run` pushed once to each of endpoints 0..m. */
  lemma RelayPriceFirstAcceptors(p: int, date: int, eos: seq<string>,
                                 submit: (string, Transaction) -> Response, k: nat, m: nat)
    requires k < |eos| && m < |eos|
    requires forall j :: 0 <= j < k ==> submit(eos[j], UpdateTransaction(p)).Rejected?
    requires submit(eos[k], UpdateTransaction(p)).Accepted?
    requires forall j :: 0 <= j < m ==> submit(eos[j], RunTransaction()).Rejected?
    requires submit(eos[m], RunTransaction()).Accepted?
    ensures RelayPrice(Some(p), date, eos, submit) ==
      Report(Some(p), Complete,
             Pushes(seq(k + 1, j requires 0 <= j <= k => Attempt(eos[j], UpdateTransaction(p))))
             + [SavedTime(date)]
             + Pushes(seq(m + 1, j requires 0 <= j <= m => Attempt(eos[j], RunTransaction()))))
  {
    FailoverFirstSuccess(UpdateTransaction(p), eos, submit, k);
    FailoverFirstSuccess(RunTransaction(), eos, submit, m);
  }

  /** The whole trace of a cycle whose `update` is first accepted by endpoint k and
      whose `run` every endpoint rejects: `run` was pushed once to every endpoint,
      and the cycle reports the all-endpoints error for `run`. */
  lemma RelayPriceRunExhausted(p: int, date: int, eos: seq<string>,
                               submit: (string, Transaction) -> Response, k: nat)
    requires k < |eos|
    requires forall j :: 0 <= j < k ==> submit(eos[j], UpdateTransaction(p)).Rejected?
    requires submit(eos[k], UpdateTransaction(p)).Accepted?
    requires forall j :: 0 <= j < |eos| ==> submit(eos[j], RunTransaction()).Rejected?
    ensures RelayPrice(Some(p), date, eos, submit) ==
      Report(Some(p), RunFailed(AllEndpointsFailed),
             Pushes(seq(k + 1, j requires 0 <= j <= k => Attempt(eos[j], UpdateTransaction(p))))
             + [SavedTime(date)]
             + Pushes(seq(|eos|, j requires 0 <= j < |eos| => Attempt(eos[j], RunTransaction()))))
  {
    FailoverFirstSuccess(UpdateTransaction(p), eos, submit, k);
    FailoverExhausted(RunTransaction(), eos, submit);
  }

  /** The whole trace of a cycle whose `update` every endpoint rejects: `update`
      pushed once to every endpoint, nothing saved, `run` never pushed. */
  lemma RelayPriceUpdateExhausted(p: int, date: int, eos: seq<string>,
                                  submit: (string, Transaction) -> Response)
    requires forall j :: 0 <= j < |eos| ==> submit(eos[j], UpdateTransaction(p)).Rejected?
    ensures RelayPrice(Some(p), date, eos, submit) ==
      Report(Some(p), UpdateFailed(AllEndpointsFailed),
             Pushes(seq(|eos|, j requires 0 <= j < |eos| => Attempt(eos[j], UpdateTransaction(p)))))
  {
    FailoverExhausted(UpdateTransaction(p), eos, submit);
  }

  /** `collect()`: one full cycle. It stops before any push exactly when neither
      candidate rate exists: the EOS/USD quote has no valid sample and one of the
      BTC/USD and EOS/BTC quotes has none either. */
  function Collect(cfg: Config, date: int, download: string -> Option<Json>, parseFloat: Json -> Option<real>,
                   submit: (string, Transaction) -> Response): (r: Report)
    ensures r.outcome.PriceInvalid? <==>
      && (NoValidEntry(GetPrices(cfg.btcUsd, download, parseFloat)) || NoValidEntry(GetPrices(cfg.eosBtc, download, parseFloat)))
      && NoValidEntry(GetPrices(cfg.eosUsd, download, parseFloat))
    ensures r.outcome.PriceInvalid? ==> r.events == []
    // a valid cycle pushes its own price, to the first endpoint first
    ensures r.price == CyclePrice(cfg, download, parseFloat)
    ensures r.price.Some? && cfg.eos != [] ==>
      |r.events| > 0 && r.events[0] == Pushed(Attempt(cfg.eos[0], UpdateTransaction(r.price.value)))
  {
    RelayPriceSequencing(CyclePrice(cfg, download, parseFloat), date, cfg.eos, submit);
    RelayPrice(CyclePrice(cfg, download, parseFloat), date, cfg.eos, submit)
  }

  /** When no provider of the EOS/USD quote and no provider of the BTC/USD quote
      returns a document, the cycle ends before anything is pushed or saved. */
  lemma CollectWithoutDocuments(cfg: Config, date: int, download: string -> Option<Json>,
                                parseFloat: Json -> Option<real>, submit: (string, Transaction) -> Response)
    requires forall k :: 0 <= k < |cfg.btcUsd| ==> download(cfg.btcUsd[k].url).None?
    requires forall k :: 0 <= k < |cfg.eosUsd| ==> download(cfg.eosUsd[k].url).None?
    ensures Collect(cfg, date, download, parseFloat, submit) ==
      Report(None, PriceInvalid, [])
  {
    NoDocumentsNoSamples(cfg.btcUsd, download, parseFloat);
    NoDocumentsNoSamples(cfg.eosUsd, download, parseFloat);
  }

  lemma NoDocumentsNoSamples(providers: seq<Provider>, download: string -> Option<Json>,
                             parseFloat: Json -> Option<real>)
    requires forall k :: 0 <= k < |providers| ==> download(providers[k].url).None?
    ensures GetPrices(providers, download, parseFloat) == []
  {
    var o := Outcomes(providers, download, parseFloat);
    assert forall k :: 0 <= k < |o| ==> o[k] == Undef;
    DropUndefinedAllFailed(o);
  }
}

=== FILE: extraction.dfy ===
/** `unpack` (index.js:67-76): walking a provider's JSON response along a
    `/`-separated extraction path and parsing the value found there. */
module Extraction {
  import opened JsValues

  /** A parsed JSON document. Numbers are exact reals. */
  datatype Json =
    | JNull
    | JBool(b: bool)
    | JNumber(n: real)
    | JString(s: string)
    | JArray(items: seq<Json>)
    | JObject(fields: map<string, Json>)

  /** The result of the JavaScript expression `value[key]`: a value, `undefined`,
      or a thrown TypeError. */
  datatype Access = Value(json: Json) | Undefined | Thrown

  // ---------------------------------------------------------------------------
  // `path.split("/")`

  /** No piece contains the separator. */
  predicate SlashFree(parts: seq<string>)
  {
    forall k :: 0 <= k < |parts| ==> '/' !in parts[k]
  }

  /** `s.split("/")`: the pieces between the separators, empty pieces included. */
  function Split(s: string): (parts: seq<string>)
    ensures |parts| >= 1
    ensures SlashFree(parts)
  {
    if |s| == 0 then [""]
    else
      var rest := Split(s[1..]);
      if s[0] == '/' then [""] + rest
      else
        assert forall k :: 1 <= k < |rest| ==> rest[1..][k - 1] == rest[k];
        [[s[0]] + rest[0]] + rest[1..]
  }

  /** `parts.join("/")`. */
  function Join(parts: seq<string>): string
    requires |parts| >= 1
  {
    if |parts| == 1 then parts[0] else parts[0] + "/" + Join(parts[1..])
  }

  /** Joining the pieces of a split gives back the path. */
  lemma {:induction false} JoinSplit(s: string)
    ensures Join(Split(s)) == s
  {
    if |s| > 0 {
      var rest := Split(s[1..]);
      JoinSplit(s[1..]);
      assert s == [s[0]] + s[1..];
      if s[0] != '/' && |rest| > 1 {
        assert rest == [rest[0]] + rest[1..];
        assert Join(rest) == rest[0] + "/" + Join(rest[1..]);
        var parts := Split(s);
        assert parts[1..] == rest[1..];
      }
    }
  }

  /** A piece without a separator splits to itself. */
  lemma {:induction false} SplitPiece(a: string)
    requires '/' !in a
    ensures Split(a) == [a]
  {
    if |a| > 0 {
      assert '/' !in a[1..] by {
        forall k | 0 <= k < |a[1..]| ensures a[1..][k] != '/' {
          assert a[1..][k] == a[k + 1];
        }
      }
      SplitPiece(a[1..]);
      assert a == [a[0]] + a[1..];
    }
  }

  /** A leading piece followed by a separator splits off as the first segment. */
  lemma {:induction false} SplitLeading(a: string, b: string)
    requires '/' !in a
    ensures Split(a + "/" + b) == [a] + Split(b)
  {
    if |a| == 0 {
      assert a + "/" + b == "/" + b;
      assert ("/" + b)[1..] == b;
    } else {
      assert '/' !in a[1..] by {
        forall k | 0 <= k < |a[1..]| ensures a[1..][k] != '/' {
          assert a[1..][k] == a[k + 1];
        }
      }
      SplitLeading(a[1..], b);
      assert (a + "/" + b)[1..] == a[1..] + "/" + b;
      assert (a + "/" + b)[0] == a[0];
      assert a == [a[0]] + a[1..];
    }
  }

  /** Splitting a join of separator-free pieces gives back the pieces. */
  lemma {:induction false} SplitJoin(parts: seq<string>)
    requires |parts| >= 1
    requires SlashFree(parts)
    ensures Split(Join(parts)) == parts
  {
    if |parts| == 1 {
      SplitPiece(parts[0]);
    } else {
      SplitJoin(parts[1..]);
      SplitLeading(parts[0], Join(parts[1..]));
      assert parts == [parts[0]] + parts[1..];
    }
  }

  // ---------------------------------------------------------------------------
  // Canonical array indices

  predicate IsDigit(c: char)
  {
    '0' <= c <= '9'
  }

  predicate AllDigits(s: string)
  {
    forall k :: 0 <= k < |s| ==> IsDigit(s[k])
  }

  /** The decimal value of a digit string. */
  function DigitsValue(s: string): nat
    requires AllDigits(s)
  {
    if |s| == 0 then 0
    else DigitsValue(s[..|s| - 1]) * 10 + (s[|s| - 1] as int - '0' as int)
  }

  function DigitChar(d: nat): char
    requires d < 10
  {
    ('0' as int + d) as char
  }

  /** The decimal spelling of `n`, as `String(n)` writes it. */
  function NatToString(n: nat): string
  {
    if n < 10 then [DigitChar(n)] else NatToString(n / 10) + [DigitChar(n % 10)]
  }

  /** A property name that addresses an array element: the canonical decimal
      spelling of a number, with no sign and no leading zero. */
  function ArrayIndex(key: string): (r: Option<nat>)
    ensures r.Some? ==> |key| > 0 && AllDigits(key) && (key[0] == '0' ==> key == "0")
  {
    if |key| > 0 && AllDigits(key) && (key[0] != '0' || |key| == 1) then Some(DigitsValue(key))
    else None
  }

  lemma {:induction false} NatToStringDigits(n: nat)
    ensures |NatToString(n)| > 0 && AllDigits(NatToString(n))
    ensures NatToString(n)[0] == '0' ==> n == 0
    ensures DigitsValue(NatToString(n)) == n
  {
    if n >= 10 {
      NatToStringDigits(n / 10);
      var s := NatToString(n);
      assert s[..|s| - 1] == NatToString(n / 10);
    }
  }

  lemma {:induction false} DigitsValuePositive(s: string)
    requires |s| > 0 && AllDigits(s) && s[0] != '0'
    ensures DigitsValue(s) > 0
  {
    if |s| > 1 {
      DigitsValuePositive(s[..|s| - 1]);
    }
  }

  lemma {:induction false} DigitsCanonical(s: string)
    requires |s| > 0 && AllDigits(s) && (s[0] != '0' || |s| == 1)
    ensures NatToString(DigitsValue(s)) == s
  {
    if |s| > 1 {
      var init := s[..|s| - 1];
      DigitsValuePositive(init);
      DigitsCanonical(init);
      var d := s[|s| - 1] as int - '0' as int;
      var n := DigitsValue(s);
      assert n == DigitsValue(init) * 10 + d;
      assert n / 10 == DigitsValue(init) && n % 10 == d;
      assert s == init + [s[|s| - 1]];
    }
  }

  /** The array-index keys are exactly the decimal spellings of the naturals. */
  lemma ArrayIndexCanonical(key: string, n: nat)
    ensures ArrayIndex(key) == Some(n) <==> key == NatToString(n)
  {
    if ArrayIndex(key) == Some(n) {
      DigitsCanonical(key);
    }
    if key == NatToString(n) {
      NatToStringDigits(n);
    }
  }

  // ---------------------------------------------------------------------------
  // Property access and the walk

  /** `value[key]` for a JSON value: object fields, array elements and string
      characters by canonical index, `length` of arrays and strings; any other
      property of a non-null value is `undefined`; indexing `null` throws. */
  function Get(value: Json, key: string): (r: Access)
    ensures r.Thrown? <==> value.JNull?
    ensures value.JObject? ==> r == (if key in value.fields then Value(value.fields[key]) else Undefined)
    ensures value.JArray? && ArrayIndex(key).Some? && ArrayIndex(key).value < |value.items| ==>
      r == Value(value.items[ArrayIndex(key).value])
    // a missing element or any other key of an array is `undefined`, except `length`
    ensures (value.JArray? && key != "length" &&
             (ArrayIndex(key).None? || ArrayIndex(key).value >= |value.items|)) ==> r == Undefined
    ensures value.JArray? && key == "length" ==> r == Value(JNumber(|value.items| as real))
    // numbers and booleans have no properties the pipeline can reach
    ensures value.JBool? || value.JNumber? ==> r == Undefined
  {
    match value
    case JNull => Thrown
    case JBool(_) => Undefined
    case JNumber(_) => Undefined
    case JString(s) =>
      var i := ArrayIndex(key);
      if i.Some? && i.value < |s| then Value(JString([s[i.value]]))
      else if key == "length" then Value(JNumber(|s| as real))
      else Undefined
    case JArray(items) =>
      var i := ArrayIndex(key);
      if i.Some? && i.value < |items| then Value(items[i.value])
      else if key == "length" then Value(JNumber(|items| as real))
      else Undefined
    case JObject(fields) =>
      if key in fields then Value(fields[key]) else Undefined
  }

  /** `value[key]` on a string: the one-character string at a canonical in-range
      index, `undefined` past the end, and the length for `length`. */
  lemma GetString(s: string, n: nat)
    ensures n < |s| ==> Get(JString(s), NatToString(n)) == Value(JString([s[n]]))
    ensures n >= |s| ==> Get(JString(s), NatToString(n)) == Undefined
    ensures Get(JString(s), "length") == Value(JNumber(|s| as real))
  {
    ArrayIndexCanonical(NatToString(n), n);
    assert ArrayIndex("length").None? by {
      assert !IsDigit("length"[0]);
    }
  }

  /** The loop `for (i in turns) value = value[turns[i]]`: each segment indexes the
      value reached so far; indexing `undefined` or `null` throws. */
  function Walk(value: Json, turns: seq<string>): (r: Access)
    ensures |turns| == 0 ==> r == Value(value)
    // one segment is one property access; with `WalkAppend`, the walk is the
    // left fold of `Get` over the segments
    ensures |turns| == 1 ==> r == Get(value, turns[0])
    ensures r.Undefined? ==> |turns| > 0
    // `undefined` comes only from the last segment, applied to a value reached by
    // the others
    ensures r.Undefined? ==>
      && Walk(value, turns[..|turns| - 1]).Value?
      && Get(Walk(value, turns[..|turns| - 1]).json, turns[|turns| - 1]).Undefined?
    decreases |turns|
  {
    if |turns| == 0 then Value(value)
    else
      match Get(value, turns[0])
      case Thrown => Thrown
      case Undefined => if |turns| == 1 then Undefined else Thrown
      case Value(next) =>
        var r := Walk(next, turns[1..]);
        assert r.Undefined? ==>
          && turns[..|turns| - 1][0] == turns[0]
          && turns[..|turns| - 1][1..] == turns[1..][..|turns| - 2];
        r
  }

  /** The segments are applied in order: walking `a + b` is walking `a`, then
      walking `b` from where `a` ended; after an `undefined`, any further segment
      throws. */
  lemma {:induction false} WalkAppend(value: Json, a: seq<string>, b: seq<string>)
    ensures Walk(value, a + b) ==
      match Walk(value, a)
      case Value(w) => Walk(w, b)
      case Thrown => Thrown
      case Undefined => if |b| == 0 then Undefined else Thrown
    decreases |a|
  {
    if |a| == 0 {
      assert a + b == b;
    } else {
      assert (a + b)[0] == a[0];
      assert (a + b)[1..] == a[1..] + b;
      match Get(value, a[0])
      case Thrown =>
      case Undefined =>
      case Value(next) => WalkAppend(next, a[1..], b);
    }
  }

  /** `unpack(object, path)`: `undefined` when there is no document or the walk
      throws; otherwise `parseFloat` of the value reached, which is NaN for a missing
      final key. `parseFloat` of a JSON value is left abstract; `None` is NaN. */
  function Unpack(doc: Option<Json>, path: string, parseFloat: Json -> Option<real>): (r: Num)
    ensures doc.None? ==> r == Undef
    ensures r == Undef <==> doc.None? || Walk(doc.value, Split(path)).Thrown?
    ensures r.Fin? ==> exists j :: Walk(doc.value, Split(path)) == Value(j) && parseFloat(j) == Some(r.x)
  {
    match doc
    case None => Undef
    case Some(document) =>
      match Walk(document, Split(path))
      case Thrown => Undef
      case Undefined => NaN
      case Value(j) => (match parseFloat(j) case Some(x) => Fin(x) case None => NaN)
  }

  lemma SlashFreeAppend(a: seq<string>, b: seq<string>)
    requires SlashFree(a) && SlashFree(b)
    ensures SlashFree(a + b)
  {
    forall k | 0 <= k < |a + b| ensures '/' !in (a + b)[k] {
      if k >= |a| {
        assert (a + b)[k] == b[k - |a|];
      }
    }
  }

  /** A missing final key gives NaN (`parseFloat(undefined)`), not `undefined`. */
  lemma UnpackMissingFinalKey(document: Json, prefix: seq<string>, key: string, fields: map<string, Json>,
                              parseFloat: Json -> Option<real>)
    requires SlashFree(prefix) && '/' !in key
    requires Walk(document, prefix) == Value(JObject(fields))
    requires key !in fields
    ensures Unpack(Some(document), Join(prefix + [key]), parseFloat) == NaN
  {
    SlashFreeAppend(prefix, [key]);
    SplitJoin(prefix + [key]);
    WalkAppend(document, prefix, [key]);
    assert [key][1..] == [];
  }

  /** Indexing through a `null` intermediate throws, so `unpack` gives `undefined`. */
  lemma UnpackThroughNull(document: Json, prefix: seq<string>, rest: seq<string>,
                          parseFloat: Json -> Option<real>)
    requires SlashFree(prefix) && SlashFree(rest) && |rest| >= 1
    requires Walk(document, prefix) == Value(JNull)
    ensures Unpack(Some(document), Join(prefix + rest), parseFloat) == Undef
  {
    SlashFreeAppend(prefix, rest);
    SplitJoin(prefix + rest);
    WalkAppend(document, prefix, rest);
  }

  /** Indexing through an `undefined` intermediate (a missing key that is not the
      last segment) throws, so `unpack` gives `undefined`. */
  lemma UnpackThroughUndefined(document: Json, prefix: seq<string>, rest: seq<string>,
                               parseFloat: Json -> Option<real>)
    requires SlashFree(prefix) && SlashFree(rest) && |rest| >= 1
    requires Walk(document, prefix) == Undefined
    ensures Unpack(Some(document), Join(prefix + rest), parseFloat) == Undef
  {
    SlashFreeAppend(prefix, rest);
    SplitJoin(prefix + rest);
    WalkAppend(document, prefix, rest);
  }

  /** A path that reaches a value yields `parseFloat` of that value. */
  lemma UnpackReached(document: Json, parts: seq<string>, j: Json, parseFloat: Json -> Option<real>)
    requires SlashFree(parts) && |parts| >= 1
    requires Walk(document, parts) == Value(j)
    ensures Unpack(Some(document), Join(parts), parseFloat) ==
      if parseFloat(j).Some? then Fin(parseFloat(j).value) else NaN
  {
    SplitJoin(parts);
  }
}

=== FILE: js_values.dfy ===
/** The JavaScript values that flow through the price pipeline, reduced to what the
    pipeline can tell apart: a finite number, NaN, or `undefined`. */
module JsValues {

  /** `Some(v)` for a value, `None` for JavaScript's `undefined` (or NaN, where the
      context says so). */
  datatype Option<+T> = None | Some(value: T)

  /** A number-like JavaScript value: a finite number, NaN, or `undefined`. */
  datatype Num = Fin(x: real) | NaN | Undef

  /** JavaScript's global `isNaN`: it converts its argument to a number first, and
      `undefined` converts to NaN. */
  predicate IsNaNCoerced(n: Num)
  {
    match n
    case Fin(_) => false
    case NaN => true
    case Undef => true
  }

  /** `isValid` (index.js:18-20): `!isNaN(number) && number !== undefined`; the
      `null` test cannot fail on these values. Exactly the finite numbers pass. */
  function IsValid(n: Num): (b: bool)
    ensures b <==> !IsNaNCoerced(n) && n != Undef
  {
    n.Fin?
  }

  /** JavaScript `*`: a product with NaN or `undefined` on either side is NaN. */
  function Mul(a: Num, b: Num): (r: Num)
    ensures r != Undef
    ensures IsValid(r) <==> IsValid(a) && IsValid(b)
    ensures IsValid(r) ==> r.x == a.x * b.x
  {
    if a.Fin? && b.Fin? then Fin(a.x * b.x) else NaN
  }

  /** A median result used as a JavaScript value: `undefined` when there is none. */
  function ToNum(o: Option<real>): Num
  {
    match o
    case Some(x) => Fin(x)
    case None => Undef
  }
}

=== FILE: relay.dfy ===
/** The relay: `tryTransaction` (index.js:83-102), which pushes one action to the
    ledger endpoints in preference order until one accepts it. The ledger call
    `api.transact` is abstract: `submit(url, tx)` is the endpoint's answer. */
module Relay {

  /** The account that owns the oracle contract. */
  const Contract: string := "buckprotocol"
  /** Transaction options passed with every push. */
  const BlocksBehind: nat := 3
  const ExpireSeconds: nat := 15
  /** The error `tryTransaction` returns once every endpoint has failed. */
  const AllEndpointsFailed: string := "Transaction failed on all endpoints"

  /** The `data` of the two actions the oracle pushes. */
  datatype Payload = UpdatePrice(eosPrice: int) | RunBatch(max: int)

  /** One action of the oracle contract, with its authorization and options. */
  datatype Transaction = Transaction(
    account: string,
    name: string,
    actor: string,
    permission: string,
    data: Payload,
    blocksBehind: nat,
    expireSeconds: nat)

  /** The transaction `tryTransaction(action, actor, permission, data)` builds. */
  function MakeTransaction(action: string, actor: string, permission: string, data: Payload): Transaction
  {
    Transaction(Contract, action, actor, permission, data, BlocksBehind, ExpireSeconds)
  }

  /** An endpoint's answer to one push: accepted with a transaction id, or an
      error (a thrown exception in the source). */
  datatype Response = Accepted(transactionId: string) | Rejected(message: string)

  /** What `tryTransaction` returns: the accepted transaction or an `Error`. */
  datatype TxResult = Done(transactionId: string) | Error(message: string)

  /** One push of `tx` to the endpoint at `url`. */
  datatype Attempt = Attempt(url: string, tx: Transaction)

  /** The result together with the pushes made, in order. */
  datatype Submission = Submission(result: TxResult, attempts: seq<Attempt>)

  /** Some endpoint from index `from` on accepts `tx`. */
  predicate SomeAccepts(tx: Transaction, eos: seq<string>, submit: (string, Transaction) -> Response, from: nat)
  {
    exists k :: from <= k < |eos| && submit(eos[k], tx).Accepted?
  }

  /** `tryTransaction(..., endpoint)`: push `tx` to `eos[endpoint]`; on an error, go
      on with the next endpoint; past the end of the list, give up. */
  function TryTransaction(tx: Transaction, eos: seq<string>, submit: (string, Transaction) -> Response,
                          endpoint: nat): (s: Submission)
    // the pushes go to consecutive endpoints from `endpoint` on, all with the same transaction
    ensures endpoint + |s.attempts| <= |eos| || s.attempts == []
    ensures forall k :: 0 <= k < |s.attempts| ==> s.attempts[k] == Attempt(eos[endpoint + k], tx)
    // every push but the last was rejected
    ensures forall k :: 0 <= k < |s.attempts| - 1 ==> submit(s.attempts[k].url, tx).Rejected?
    // success: the last push was accepted, and its id is returned
    ensures s.result.Done? ==>
      |s.attempts| > 0 && submit(eos[endpoint + |s.attempts| - 1], tx) == Accepted(s.result.transactionId)
    // failure: every remaining endpoint was tried and rejected the push
    ensures s.result.Error? ==>
      && s.result.message == AllEndpointsFailed
      && (endpoint <= |eos| ==> |s.attempts| == |eos| - endpoint)
      && forall k :: endpoint <= k < |eos| ==> submit(eos[k], tx).Rejected?
    ensures s.result.Done? <==> SomeAccepts(tx, eos, submit, endpoint)
    decreases |eos| - endpoint
  {
    if endpoint >= |eos| then Submission(Error(AllEndpointsFailed), [])
    else
      var attempt := Attempt(eos[endpoint], tx);
      match submit(eos[endpoint], tx)
      case Accepted(id) => Submission(Done(id), [attempt])
      case Rejected(_) =>
        var rest := TryTransaction(tx, eos, submit, endpoint + 1);
        Submission(rest.result, [attempt] + rest.attempts)
  }

  /** The first accepting endpoint wins: if endpoints 0..k-1 reject `tx` and endpoint
      k accepts it, the result is k's transaction id after exactly k+1 pushes, to
      endpoints 0..k in order. */
  lemma FailoverFirstSuccess(tx: Transaction, eos: seq<string>, submit: (string, Transaction) -> Response,
                             k: nat)
    requires k < |eos|
    requires forall j :: 0 <= j < k ==> submit(eos[j], tx).Rejected?
    requires submit(eos[k], tx).Accepted?
    ensures TryTransaction(tx, eos, submit, 0) ==
      Submission(Done(submit(eos[k], tx).transactionId), seq(k + 1, j requires 0 <= j <= k => Attempt(eos[j], tx)))
  {
    var s := TryTransaction(tx, eos, submit, 0);
    assert s.result.Done?;
    var n := |s.attempts|;
    forall j | 0 <= j < n - 1
      ensures submit(eos[j], tx).Rejected?
    {
      assert s.attempts[j].url == eos[j];
    }
    FirstAcceptingUnique(tx, eos, submit, n - 1, k);
    assert s.attempts == seq(k + 1, j requires 0 <= j <= k => Attempt(eos[j], tx));
  }

  /** When every endpoint rejects `tx` (or there are none), the result is the
      "failed on all endpoints" error after one push to each endpoint, in order. */
  lemma FailoverExhausted(tx: Transaction, eos: seq<string>, submit: (string, Transaction) -> Response)
    requires forall j :: 0 <= j < |eos| ==> submit(eos[j], tx).Rejected?
    ensures TryTransaction(tx, eos, submit, 0) ==
      Submission(Error(AllEndpointsFailed), seq(|eos|, j requires 0 <= j < |eos| => Attempt(eos[j], tx)))
  {
  }

  /** There is only one first accepting endpoint. */
  lemma FirstAcceptingUnique(tx: Transaction, eos: seq<string>, submit: (string, Transaction) -> Response,
                             i: nat, k: nat)
    requires i < |eos| && k < |eos|
    requires forall j :: 0 <= j < i ==> submit(eos[j], tx).Rejected?
    requires forall j :: 0 <= j < k ==> submit(eos[j], tx).Rejected?
    requires submit(eos[i], tx).Accepted? && submit(eos[k], tx).Accepted?
    ensures i == k
  {
  }
}

=== FILE: sampling.dfy ===
/** The sampler: `getPrice` and `getPrices` (index.js:56-59, 78-81). Downloads are
    abstract: `download(url)` is the parsed document, or `None` when the fetch or
    the JSON decoding failed (`download` returns `undefined`). */
module Sampling {
  import opened JsValues
  import opened Extraction

  /** One price source: where to fetch and the extraction path inside the document. */
  datatype Provider = Provider(url: string, path: string)

  /** `getPrice(provider)`: download, then `unpack`. */
  function GetPrice(provider: Provider, download: string -> Option<Json>,
                    parseFloat: Json -> Option<real>): (r: Num)
    // a failed download or a throwing walk is a failure, dropped later
    ensures r == Undef <==>
      download(provider.url).None? || Walk(download(provider.url).value, Split(provider.path)).Thrown?
    // a number is what `parseFloat` reads from the value the path reaches
    ensures r.Fin? ==> exists j :: Walk(download(provider.url).value, Split(provider.path)) == Value(j) &&
                                   parseFloat(j) == Some(r.x)
  {
    Unpack(download(provider.url), provider.path, parseFloat)
  }

  /** The awaited `map` over the providers: one outcome per provider, in provider
      order. */
  function Outcomes(providers: seq<Provider>, download: string -> Option<Json>,
                    parseFloat: Json -> Option<real>): (r: seq<Num>)
    ensures |r| == |providers|
    ensures forall k :: 0 <= k < |r| ==> r[k] == GetPrice(providers[k], download, parseFloat)
  {
    seq(|providers|, k requires 0 <= k < |providers| => GetPrice(providers[k], download, parseFloat))
  }

  /** The outcomes follow provider order: the outcomes of `p + q` are those of `p`
      followed by those of `q`. */
  lemma OutcomesAppend(p: seq<Provider>, q: seq<Provider>, download: string -> Option<Json>,
                       parseFloat: Json -> Option<real>)
    ensures Outcomes(p + q, download, parseFloat) ==
      Outcomes(p, download, parseFloat) + Outcomes(q, download, parseFloat)
  {
    var o := Outcomes(p + q, download, parseFloat);
    var op, oq := Outcomes(p, download, parseFloat), Outcomes(q, download, parseFloat);
    forall k | 0 <= k < |o|
      ensures o[k] == (op + oq)[k]
    {
      if k < |p| {
        assert (p + q)[k] == p[k];
      } else {
        assert (p + q)[k] == q[k - |p|];
      }
    }
  }

  /** `.filter(element => element !== undefined)`: drops `undefined` and keeps
      everything else, NaN included, with its multiplicity. */
  function DropUndefined(s: seq<Num>): (r: seq<Num>)
    ensures Undef !in r
    ensures multiset(r) == multiset(s)[Undef := 0]
    ensures |r| == |s| - multiset(s)[Undef]
  {
    if |s| == 0 then []
    else
      assert s == [s[0]] + s[1..];
      var rest := DropUndefined(s[1..]);
      if s[0] == Undef then rest else [s[0]] + rest
  }

  /** The filter keeps the order of what it keeps: it distributes over
      concatenation. */
  lemma {:induction false} DropUndefinedAppend(a: seq<Num>, b: seq<Num>)
    ensures DropUndefined(a + b) == DropUndefined(a) + DropUndefined(b)
  {
    if |a| == 0 {
      assert a + b == b;
    } else {
      assert (a + b)[0] == a[0];
      assert (a + b)[1..] == a[1..] + b;
      DropUndefinedAppend(a[1..], b);
    }
  }

  /** A list without `undefined` passes the filter unchanged. */
  lemma {:induction false} DropUndefinedKeepsDefined(s: seq<Num>)
    requires Undef !in s
    ensures DropUndefined(s) == s
  {
    if |s| > 0 {
      assert s == [s[0]] + s[1..];
      DropUndefinedKeepsDefined(s[1..]);
    }
  }

  /** A list of failures filters down to nothing. */
  lemma {:induction false} DropUndefinedAllFailed(s: seq<Num>)
    requires forall k :: 0 <= k < |s| ==> s[k] == Undef
    ensures DropUndefined(s) == []
  {
    if |s| > 0 {
      DropUndefinedAllFailed(s[1..]);
    }
  }

  /** `getPrices(providers)`: the providers' outcomes in provider order, without the
      failed ones. */
  function GetPrices(providers: seq<Provider>, download: string -> Option<Json>,
                     parseFloat: Json -> Option<real>): (r: seq<Num>)
    ensures Undef !in r
    ensures multiset(r) == multiset(Outcomes(providers, download, parseFloat))[Undef := 0]
    ensures |r| == |providers| - multiset(Outcomes(providers, download, parseFloat))[Undef]
  {
    DropUndefined(Outcomes(providers, download, parseFloat))
  }

  /** Sampling two lists of providers one after the other gives the two sample lists
      one after the other: the result follows provider order. */
  lemma GetPricesAppend(p: seq<Provider>, q: seq<Provider>, download: string -> Option<Json>,
                        parseFloat: Json -> Option<real>)
    ensures GetPrices(p + q, download, parseFloat) ==
      GetPrices(p, download, parseFloat) + GetPrices(q, download, parseFloat)
  {
    OutcomesAppend(p, q, download, parseFloat);
    DropUndefinedAppend(Outcomes(p, download, parseFloat), Outcomes(q, download, parseFloat));
  }

  /** A provider without a document contributes nothing. */
  lemma GetPriceNoDocument(provider: Provider, download: string -> Option<Json>,
                           parseFloat: Json -> Option<real>)
    requires download(provider.url).None?
    ensures GetPrices([provider], download, parseFloat) == []
  {
    assert Outcomes([provider], download, parseFloat) == [Undef];
    assert [Undef][1..] == [];
  }
}

=== FILE: scheduler.dfy ===
/** The scheduler: the restart delay computed by `main` (index.js:149-155) from the
    time of the last successful update. The clock and the `update.txt` file are
    inputs: `now` is `new Date().getTime()` and `saved` is what `loadTime` read,
    `None` when `parseInt` gave NaN. */
module Scheduler {
  import opened JsValues
  import opened Relay
  import opened Cycle

  /** The cycle period: five minutes in milliseconds (index.js:15). */
  const Interval: int := 5 * 60 * 1000

  /** `Math.max` and `Math.min` on integers. */
  function Max(a: int, b: int): int
  {
    if a >= b then a else b
  }

  function Min(a: int, b: int): int
  {
    if a <= b then a else b
  }

  /** `Math.max(0, Math.min(interval, interval - deltaTime))` with
      `deltaTime = now - loadTime()`. NaN propagates through `-`, `Math.min` and
      `Math.max`, so an unparsable saved time gives a NaN delay (`None`). */
  function RestartDelay(now: int, saved: Option<int>): (delay: Option<int>)
    ensures delay.Some? <==> saved.Some?
    ensures delay.Some? ==> 0 <= delay.value <= Interval
    ensures saved.Some? && 0 <= now - saved.value <= Interval ==>
      delay == Some(Interval - (now - saved.value))
    ensures saved.Some? && now - saved.value >= Interval ==> delay == Some(0)
    ensures saved.Some? && now - saved.value < 0 ==> delay == Some(Interval)
  {
    match saved
    case None => None
    case Some(time) =>
      var deltaTime := now - time;
      Some(Max(0, Min(Interval, Interval - deltaTime)))
  }

  /** Restarting within one period of the last update resumes the schedule in
      phase: the first cycle fires exactly one period after that update, and
      never earlier than now. */
  lemma RestartKeepsPhase(now: int, saved: int)
    requires saved <= now <= saved + Interval
    ensures RestartDelay(now, Some(saved)).Some?
    ensures now + RestartDelay(now, Some(saved)).value == saved + Interval
  {
  }

  /** A cycle whose update some endpoint accepted saves its start time; a restart
      within one period of it waits until one period after that start. */
  lemma ResumeAfterCycle(price: int, date: int, eos: seq<string>,
                         submit: (string, Transaction) -> Response, now: int)
    requires UpdateAccepted(price, eos, submit)
    requires date <= now <= date + Interval
    ensures SavedTime(date) in RelayPrice(Some(price), date, eos, submit).events
    ensures now + RestartDelay(now, Some(date)).value == date + Interval
  {
    RestartKeepsPhase(now, date);
  }
}

=== FILE: sorting.dfy ===
/** Ascending sort of finite numbers, as `Array.prototype.sort` with the
    comparator `(a, b) => a - b` produces it. */
module Sorting {

  predicate Sorted(s: seq<real>)
  {
    forall i, j :: 0 <= i < j < |s| ==> s[i] <= s[j]
  }

  /** Every element of `s` is at least `lo`. */
  predicate AtLeast(lo: real, s: seq<real>)
  {
    forall k :: 0 <= k < |s| ==> lo <= s[k]
  }

  /** A least element followed by an ascending sequence is ascending. */
  lemma SortedCons(x: real, t: seq<real>)
    requires Sorted(t) && AtLeast(x, t)
    ensures Sorted([x] + t)
  {
    var r := [x] + t;
    forall i, j | 0 <= i < j < |r|
      ensures r[i] <= r[j]
    {
      assert r[j] == t[j - 1];
      if i > 0 {
        assert r[i] == t[i - 1];
      }
    }
  }

  lemma MultisetCons(s: seq<real>)
    requires |s| > 0
    ensures multiset(s) == multiset{s[0]} + multiset(s[1..])
  {
    assert s == [s[0]] + s[1..];
  }

  /** Inserts `x` before the first element that is not smaller. */
  function Insert(x: real, s: seq<real>): seq<real>
  {
    if |s| == 0 then [x]
    else if x <= s[0] then [x] + s
    else [s[0]] + Insert(x, s[1..])
  }

  /** Insertion adds exactly `x` and keeps an ascending sequence ascending. */
  lemma {:induction false} InsertCorrect(x: real, s: seq<real>)
    requires Sorted(s)
    ensures Sorted(Insert(x, s))
    ensures multiset(Insert(x, s)) == multiset(s) + multiset{x}
  {
    if |s| == 0 {
    } else if x <= s[0] {
      SortedCons(x, s);
    } else {
      var rest := Insert(x, s[1..]);
      SortedTail(s);
      InsertCorrect(x, s[1..]);
      MultisetCons(s);
      InsertTailBound(x, s, rest);
      SortedCons(s[0], rest);
    }
  }

  /** What is inserted after the head of `s` is bounded below by that head. */
  lemma InsertTailBound(x: real, s: seq<real>, rest: seq<real>)
    requires Sorted(s) && |s| > 0 && s[0] < x
    requires multiset(rest) == multiset(s[1..]) + multiset{x}
    ensures AtLeast(s[0], rest)
  {
    forall k | 0 <= k < |rest|
      ensures s[0] <= rest[k]
    {
      assert rest[k] in multiset(rest);
      if rest[k] != x {
        assert rest[k] in multiset(s[1..]);
        var j :| 0 <= j < |s[1..]| && s[1..][j] == rest[k];
        assert s[j + 1] == rest[k];
      }
    }
  }

  /** Insertion sort. */
  function SortAsc(s: seq<real>): seq<real>
  {
    if |s| == 0 then [] else Insert(s[0], SortAsc(s[1..]))
  }

  /** The sort returns an ascending permutation of its input. */
  lemma {:induction false} SortAscCorrect(s: seq<real>)
    ensures Sorted(SortAsc(s))
    ensures multiset(SortAsc(s)) == multiset(s)
  {
    if |s| > 0 {
      SortAscCorrect(s[1..]);
      InsertCorrect(s[0], SortAsc(s[1..]));
      MultisetCons(s);
    }
  }

  lemma SortedTail(s: seq<real>)
    requires Sorted(s) && |s| > 0
    ensures Sorted(s[1..])
  {
    forall i, j | 0 <= i < j < |s| - 1
      ensures s[1..][i] <= s[1..][j]
    {
      assert s[1..][i] == s[i + 1] && s[1..][j] == s[j + 1];
    }
  }

  /** The head of an ascending sequence is its least element. */
  lemma SortedHeadIsLeast(s: seq<real>, x: real)
    requires Sorted(s)
    requires x in s
    ensures |s| > 0 && s[0] <= x
  {
    var j :| 0 <= j < |s| && s[j] == x;
    assert j == 0 || s[0] <= s[j];
  }

  /** Removing equal heads from equal multisets leaves equal multisets. */
  lemma MultisetTailsEqual(a: seq<real>, b: seq<real>)
    requires |a| > 0 && |b| > 0 && a[0] == b[0]
    requires multiset(a) == multiset(b)
    ensures multiset(a[1..]) == multiset(b[1..])
  {
    MultisetCons(a);
    MultisetCons(b);
    forall o: real
      ensures multiset(a[1..])[o] == multiset(b[1..])[o]
    {
      assert multiset(a)[o] == multiset(b)[o];
    }
  }

  /** Two ascending sequences with the same elements have the same head. */
  lemma SortedSameHead(a: seq<real>, b: seq<real>)
    requires Sorted(a) && Sorted(b) && |a| > 0
    requires multiset(a) == multiset(b)
    ensures |b| > 0 && a[0] == b[0]
  {
    assert a[0] in multiset(b);
    SortedHeadIsLeast(b, a[0]);
    assert b[0] in multiset(a);
    SortedHeadIsLeast(a, b[0]);
  }

  /** An ascending sequence is determined by its elements: two ascending
      permutations of the same multiset are equal. */
  lemma {:induction false} SortedUnique(a: seq<real>, b: seq<real>)
    requires Sorted(a) && Sorted(b)
    requires multiset(a) == multiset(b)
    ensures a == b
    decreases |a|
  {
    if |a| == 0 {
      assert |b| == |multiset(b)| == 0;
    } else {
      SortedSameHead(a, b);
      MultisetTailsEqual(a, b);
      SortedTail(a);
      SortedTail(b);
      SortedUnique(a[1..], b[1..]);
      assert a == [a[0]] + a[1..];
      assert b == [b[0]] + b[1..];
    }
  }
}
